=== FILE: README.md ===
# canvas_spaces manager controller — Dafny model

The service manages "spaces": groups of one group category on a Canvas
learning platform. Its single controller, `ManagerController`, has eight
request handlers: `list_groups`, `create_group`, `group_info`, `modify_group`,
`list_users`, `add_user`, `remove_user` and `set_leader`. Each handler checks
its parameters in a fixed order, looks up the user and the group it needs,
checks the caller's role (site admin, group leader, or the user concerned),
and only then changes a group. Join policies have a public vocabulary
(`invite_only`, `free_to_join`, `request`) and an internal one
(`invitation_only`, `parent_context_auto_join`, `parent_context_request`).

The model is purely functional:

- `Wrappers`, `Params`: optional parameters. Covers Rails' `nil`,
  ActiveSupport's `blank?` and the cast of an id parameter to a database id.
- `JoinTypes`: the two join-type vocabularies. Covers `display_join_type`
  and the public-to-internal mapping. `create_group` and `modify_group` each
  write that mapping out; the model defines it once.
- `Ordering`: listing a set of ids in ascending order.
- `Spaces`: the group record, the store, and the authorization predicates.
  A group has an optional leader, its active members, the users whose
  membership was marked deleted, a join level, a description and a deleted
  flag. The store holds the users, the category's groups, and the next id.
- `Manager`: one function per handler. Each maps the store, the signed-in
  caller and the request to a reply (status and body) and the store after.
  `Handle` dispatches to them.
- `ManagerProperties`: lemmas that relate several requests.
- `RemoveUserFindings`: `remove_user` as written, with its two crashes.

The session's current user becomes a `Caller` parameter (id, site-admin
flag). Every database read and write becomes a map or set operation on `Db`.

## Model

| member | source | states |
|---|---|---|
| JoinTypes.ToInternal | app/controllers/manager_controller.rb:106-115 | a public join type is accepted exactly when it is one of the three public names: `free_to_join` is stored as `parent_context_auto_join`, `request` as `parent_context_request`, and `invite_only` as `invitation_only` |
| JoinTypes.Display | app/controllers/manager_controller.rb:27-38 | `invitation_only` shows as `invite_only`, `parent_context_auto_join` as `free_to_join`, and `parent_context_request` as `request`; a stored level shows as a public name only if it is one of these three; any other value shows as `unknown:` followed by that value |
| JoinTypes.PublicRoundTrip | app/controllers/manager_controller.rb:106-115 | storing any of the three public names and displaying the stored level gives the name back |
| JoinTypes.InternalRoundTrip | app/controllers/manager_controller.rb:27-34 | displaying a known internal level and mapping the result back gives the level back |
| JoinTypes.UnknownIsRejected | app/controllers/manager_controller.rb:35-36 | the `unknown:` display of an unrecognised level is itself not an acceptable join type |
| JoinTypes.DisplayInjective | app/controllers/manager_controller.rb:27-38 | two stored levels that display alike are equal, the unknown ones included |
| Params.Missing | app/controllers/manager_controller.rb:79 | a parameter counts as missing (nil or blank) exactly when it does not count as given; `nil` and the empty string are both missing |
| Params.Supplied | app/controllers/manager_controller.rb:90 | a parameter counts as given exactly when it is present and has at least one character that is not white space |
| Params.ParseId | app/controllers/manager_controller.rb:91 | an id parameter names a database id exactly when it is a non-empty string of decimal digits, and such a parameter is never blank |
| Params.ParseIdOfDecimal | app/controllers/manager_controller.rb:91 | the decimal spelling of any id (as `Integer#to_s` writes it) names exactly that id |
| Spaces.FindUser | app/controllers/manager_controller.rb:259-263 | a user lookup finds only an existing user, and only through a non-blank parameter that denotes that user's id; it finds nothing for any other parameter |
| Spaces.FindGroup | app/controllers/manager_controller.rb:265-267 | a group lookup finds only a group of the category, and only through a non-blank parameter that denotes its id; it finds nothing for any other parameter |
| Spaces.CanManage | app/controllers/manager_controller.rb:183 | a site admin may always manage a group; anyone else only when they are its leader; a group without leader is managed by site admins alone (the same test at lines 225 and 363) |
| Spaces.CanManageMember | app/controllers/manager_controller.rb:269-271 | whoever may manage the group may manage any membership; anyone may manage their own; a caller who cannot manage the group may manage no other user's membership (the same test at line 318) |
| Manager.QueryRaises | app/controllers/manager_controller.rb:146 | a raw-id group query raises exactly when the group id is present, not blank, and not a decimal number within the bigint id range (at most 2^63-1); for a decimal id that means exactly when it exceeds that bound (the same query at line 179) |
| Spaces.AddMember | app/controllers/manager_controller.rb:273 | after the platform's `add_user`, the user is an active member, and nothing else about the group changes; adding an existing member changes nothing; a leader who was a member stays one |
| Spaces.DropMember | app/controllers/manager_controller.rb:324-326 | marking a membership deleted removes the user from the active members and records the deleted membership; nothing else changes; a leader other than that user stays a member |
| Ordering.SortedIds | app/controllers/manager_controller.rb:226 | a set of ids listed as a sequence holds every id exactly once, in ascending order, so the listing's length is the set's size |
| Manager.CreateGroup | app/controllers/manager_controller.rb:70-128 | the order of the errors (name, join_type, admin's unknown leader, invalid join_type value), each a BadRequest that creates nothing; the exact success condition; success adds one fresh group and leaves the others alone; a non-admin caller leads and is the only member; an admin without leader_id gets a group with no leader and no members; an admin's named leader leads and is the only member; the reply echoes the public join type with size 0 |
| Manager.ListGroups | app/controllers/manager_controller.rb:45-60 | lists exactly the groups not marked deleted, each once, with member count and displayed join type; the reported size equals the number listed |
| Manager.GroupInfo | app/controllers/manager_controller.rb:134-162 | a blank group_id is BadRequest; a group_id that is not a number in the bigint id range makes the query raise (500); an in-range number naming no group is NotFound; otherwise anyone reads the group's id, name, description, leader, member count and displayed join type |
| Manager.ModifyGroup | app/controllers/manager_controller.rb:167-206 | a blank group_id is BadRequest; one that is not a number in the bigint id range makes the query raise (500); an in-range number naming no group is NotFound; only a site admin or the leader succeeds, and anyone else gets Forbidden before the join type is looked at; a refusal changes nothing; a blank desc keeps the description; an invalid join_type is BadRequest with nothing saved; only description and join level of that one group can change |
| Manager.ListUsers | app/controllers/manager_controller.rb:211-232 | a missing group is BadRequest; only a site admin or the leader sees the list; the list holds exactly the active members once each, and the reported size equals the number listed |
| Manager.AddUser | app/controllers/manager_controller.rb:243-282 | errors in order (group_id, user_id, unknown user, missing group); permitted exactly for a site admin, the leader or the target user, and anyone else gets Forbidden; on success the target is a member and nothing else in the store changes |
| Manager.RemoveUser | app/controllers/manager_controller.rb:292-333 | same checks and permission rule as adding; removing the leader is BadRequest; removing a non-member is BadRequest; on success only the target's membership is marked deleted, and the leader and the other memberships stay; the two crash paths answer BadRequest (see Findings) |
| Manager.SetLeader | app/controllers/manager_controller.rb:341-374 | leader_id and that user are checked before the group, and a missing group is BadRequest; permitted exactly for a site admin or the current leader, and anyone else gets Forbidden; on success the user leads and is a member, and nothing else changes |
| Manager.Handle | app/controllers/manager_controller.rb:45-374 | across all handlers, a refused request changes nothing, no group disappears, no user is created, the only crash is the raw-id query of group_info and modify_group, and the store invariant holds afterwards: ids stay below the next id, and every leader is an active member |
| ManagerProperties.CreateThenInfo | app/controllers/manager_controller.rb:117-127 | when the new id is within the bigint id range, reading a just-created group reports the join type the creator chose and the leader the creation reply named; its size is 1 when there is a leader, though the creation reply says 0 |
| ManagerProperties.NonAdminLeaderIdIgnored | app/controllers/manager_controller.rb:99-104 | for a non-admin caller, the leader_id parameter has no effect on the outcome of create_group |
| ManagerProperties.CreateAndModifyAgreeOnLevel | app/controllers/manager_controller.rb:187-198 | create_group and modify_group store the same public join type as the same internal level |
| ManagerProperties.EmptyModifyChangesNothing | app/controllers/manager_controller.rb:183-201 | a modify_group without a usable description or join type leaves the store unchanged |
| ManagerProperties.MissingGroupReplies | app/controllers/manager_controller.rb:149-150 | a group id in the bigint id range that names no group is NotFound in group_info and modify_group (any other makes their query raise), but BadRequest in list_users, add_user, remove_user and set_leader |
| ManagerProperties.AddUserIdempotent | app/controllers/manager_controller.rb:269-276 | repeating a successful add_user succeeds again and changes nothing |
| ManagerProperties.SetLeaderIdempotent | app/controllers/manager_controller.rb:363-368 | repeating a successful set_leader leaves the store as the first one did |
| ManagerProperties.SetLeaderOfMemberKeepsMembers | app/controllers/manager_controller.rb:365 | making an existing member leader leaves the membership as it was |
| ManagerProperties.AddThenRemove | app/controllers/manager_controller.rb:318-327 | a non-leader just added can be removed by the same caller, and is then no longer a member |
| ManagerProperties.RemoveThenAdd | app/controllers/manager_controller.rb:269-274 | a user just removed can be added back by the same caller, which restores the member set |
| ManagerProperties.LeaderChangesOnlyBySetLeader | app/controllers/manager_controller.rb:319-322 | no handler except set_leader changes who leads an existing group, so the leader is never removed |
| ManagerProperties.ChangesAreAuthorized | app/controllers/manager_controller.rb:318 | every change to an existing group comes from a site admin or its leader, except a user adding or removing their own membership, which touches nothing else |
| RemoveUserFindings.RemoveUserAsWritten | app/controllers/manager_controller.rb:292-333 | remove_user as written crashes (status 500) exactly when the user is unknown, or when an authorized removal targets a non-leader without an active membership; a crash changes nothing |
| RemoveUserFindings.UnknownUserCrashes | app/controllers/manager_controller.rb:308-311 | a user id that names nobody makes remove_user as written crash, while the corrected handler answers BadRequest |
| RemoveUserFindings.NonMemberCrashes | app/controllers/manager_controller.rb:324-325 | an admin removing an existing non-member makes remove_user as written crash, while the corrected handler answers BadRequest |
| RemoveUserFindings.CorrectedAgreesOutsideCrashes | app/controllers/manager_controller.rb:292-333 | the corrected remove_user gives the same answer as the original wherever the original does not crash, and a BadRequest that changes nothing where it does |

## Findings

| source | as written | input that shows it | evidently intended | confidence | as-written member | corrected member |
|---|---|---|---|---|---|---|
| app/controllers/manager_controller.rb:310 | the "can't find user" reply interpolates `user_param`, which is not defined, so the handler raises and Rails answers 500 | remove_user with a group_id and a user_id that names no user | answer BadRequest "Can't find user", as add_user does at line 261 | high (not executed) | RemoveUserFindings.UnknownUserCrashes | Manager.RemoveUser |
| app/controllers/manager_controller.rb:324-325 | the membership lookup yields `nil` when the target has no active membership, and `nil.workflow_state=` raises (500) | an admin removing an existing user who is not a member of the group | refuse with BadRequest and change nothing | medium (not executed) | RemoveUserFindings.NonMemberCrashes | Manager.RemoveUser |

`Manager.Handle`, and so every property about the whole controller, uses
the corrected `Manager.RemoveUser`.

## Left out

- Configuration loading (lines 1-2), the `require_user` filter, and the empty `login` and `logout` actions are framework plumbing with no logic. The session's user is the `Caller` parameter.
- `test_get_user_list` is a development-only debugging endpoint.
- JSON rendering is left out: the error message texts, `as_json` field selection and `created_at`. Errors are an `Error` value, and replies carry only the modelled fields.
- The lookups of the group category and the account by configured name are assumed to succeed. A missing category would raise.
- Database failures are not modelled: a failed `save` or `create`, or a validation of the group's name. Every save succeeds.
- Params.ParseId accepts only decimal digit strings. ActiveRecord's more lenient integer cast in `find_by_id` (for example `"12abc"`) is not modelled. Neither are the other integer spellings that PostgreSQL accepts in the raw `where('groups.id = ?', …)` query of group_info and modify_group (for example `" 12"` or `"+12"`). The model treats those as non-numeric, so the query raises.
- Spaces.FindGroup and Spaces.FindUser treat a decimal id above the bigint range as naming nothing, as `find_by_id` does once the id is out of the column's range; the model does not bound the ids it hands out (`nextId` may in principle pass 2^63-1, which the database's id sequence would refuse).
- JoinTypes.Display assumes a stored `join_level` is never nil. A nil level, possible for groups created outside this service, would make `"unknown:" + nil` raise in list_groups and group_info. The model's `joinLevel` is always a string.
- Spaces.AddMember abstracts Canvas's `Group#add_user`. The model gives the user an active membership. Canvas may record the membership as invited or requested, depending on the join level.
- Membership records are modelled as two sets: active members, and users with a deleted membership. The model assumes that Canvas's `group_memberships` and `users` associations skip deleted memberships. Canvas also filters deleted user accounts from `group.users`, and the model does not.
- The database returns listings in an unspecified order. `list_groups` and `list_users` list by ascending id.
- Concurrent requests are not modelled. Each request is one atomic step on the store.

=== FILE: join_types.dfy ===
/**
  The two vocabularies of a space's join policy: the public names the API
  accepts and reports, and the `join_level` values the learning platform
  stores.
 */
module JoinTypes {
  import opened Wrappers

  const InviteOnlyName: string := "invite_only"
  const FreeToJoinName: string := "free_to_join"
  const RequestName: string := "request"

  const InvitationOnlyLevel: string := "invitation_only"
  const AutoJoinLevel: string := "parent_context_auto_join"
  const RequestLevel: string := "parent_context_request"

  /** What `display_join_type` puts before a stored value it does not know. */
  const UnknownPrefix: string := "unknown:"

  const PublicNames: set<string> := {InviteOnlyName, FreeToJoinName, RequestName}
  const InternalLevels: set<string> := {InvitationOnlyLevel, AutoJoinLevel, RequestLevel}

  /**
    The `join_level` a public join type is stored as, or `None` for a name
    outside the vocabulary (which the handlers reject).
   */
  function ToInternal(name: string): (r: Option<string>)
    ensures r.Some? <==> name in PublicNames
    ensures r.Some? ==> r.value in InternalLevels
    ensures name == FreeToJoinName ==> r == Some(AutoJoinLevel)
    ensures name == RequestName ==> r == Some(RequestLevel)
    ensures name == InviteOnlyName ==> r == Some(InvitationOnlyLevel)
  {
    if name == FreeToJoinName then Some(AutoJoinLevel)
    else if name == RequestName then Some(RequestLevel)
    else if name == InviteOnlyName then Some(InvitationOnlyLevel)
    else None
  }

  /** `display_join_type`: the public name of a stored `join_level`. */
  function Display(level: string): (r: string)
    ensures level in InternalLevels <==> r in PublicNames
    ensures level == InvitationOnlyLevel ==> r == InviteOnlyName
    ensures level == AutoJoinLevel ==> r == FreeToJoinName
    ensures level == RequestLevel ==> r == RequestName
    ensures level !in InternalLevels ==>
      |r| == |UnknownPrefix| + |level| && r[..|UnknownPrefix|] == UnknownPrefix && r[|UnknownPrefix|..] == level
  {
    if level == InvitationOnlyLevel then InviteOnlyName
    else if level == AutoJoinLevel then FreeToJoinName
    else if level == RequestLevel then RequestName
    else
      var r := UnknownPrefix + level;
      assert r[0] == 'u';
      r
  }

  /** Storing a public join type and displaying it again gives back the name. */
  lemma PublicRoundTrip(name: string)
    requires name in PublicNames
    ensures ToInternal(name).Some? && Display(ToInternal(name).value) == name
  {
  }

  /** Displaying a known level and storing the result gives back the level. */
  lemma InternalRoundTrip(level: string)
    requires level in InternalLevels
    ensures ToInternal(Display(level)) == Some(level)
  {
  }

  /** The displayed name of an unknown level is itself rejected as a join type. */
  lemma UnknownIsRejected(level: string)
    requires level !in InternalLevels
    ensures ToInternal(Display(level)).None?
  {
  }

  /** Two stored levels that display alike are the same level. */
  lemma DisplayInjective(a: string, b: string)
    requires Display(a) == Display(b)
    ensures a == b
  {
  }
}

=== FILE: manager.dfy ===
/**
  The request handlers of the manager controller, each a pure function from
  the store, the signed-in caller and the request parameters to a reply and
  the store afterwards. Every handler validates its parameters in a fixed
  order, looks up the records it needs, checks the caller's role, and only
  then changes a group; a reply other than `Ok` leaves the store as it was.
 */
module Manager {
  import opened Wrappers
  import opened Params
  import opened JoinTypes
  import opened Ordering
  import opened Spaces

  datatype Status = Ok | BadRequest | NotFound | Forbidden | InternalError

  /** Which check refused the request (the `error:` text of the reply). */
  datatype Error =
    | NoName | NoJoinType | UnknownLeader | InvalidJoinType
    | NoGroupId | NoSuchGroup | NotOwner
    | NoUserId | UnknownUser | LeaderRemoval | NotMember
    | NoLeaderId

  /** The fields of a group a reply reports; `joinType` is a public name. */
  datatype GroupView = GroupView(
    id: GroupId,
    name: string,
    description: Option<string>,
    leader: Option<UserId>,
    joinType: string,
    size: nat)

  datatype Body =
    | Failed(error: Error)
    | Done
    | Created(view: GroupView)
    | Info(view: GroupView)
    | GroupList(count: nat, groups: seq<GroupView>)
    | UserList(count: nat, users: seq<UserId>)
    | Crash   // an unhandled exception, which Rails answers with status 500

  datatype Reply = Reply(status: Status, body: Body)

  datatype Outcome = Outcome(reply: Reply, db: Db)

  /** The parameters a request may carry; each handler reads the ones it needs. */
  datatype Request = Request(
    name: Param,
    desc: Param,
    joinType: Param,
    leaderId: Param,
    groupId: Param,
    userId: Param)

  function Fail(db: Db, status: Status, e: Error): Outcome {
    Outcome(Reply(status, Failed(e)), db)
  }

  /** Saving `g` as group `id` and answering with a success message. */
  function Saved(db: Db, id: GroupId, g: Group): Outcome {
    Outcome(Reply(Ok, Done), db.(groups := db.groups[id := g]))
  }

  function View(id: GroupId, g: Group): GroupView {
    GroupView(id, g.name, g.description, g.leader, Display(g.joinLevel), |g.members|)
  }

  /** The members a new group starts with: its leader, if it has one. */
  function Founders(leader: Option<UserId>): set<UserId> {
    if leader.Some? then {leader.value} else {}
  }

  /** An admin names an existing user as leader, or none at all; nobody else names one. */
  predicate LeaderResolves(db: Db, caller: Caller, req: Request) {
    caller.siteAdmin && Supplied(req.leaderId) ==> FindUser(db, req.leaderId).Some?
  }

  // ---------------------------------------------------------------- create_group

  /**
    `create_group`: name, then join type, then (for an admin) the named
    leader, then the join type's value are checked. A non-admin always leads
    and belongs to the new group; an admin who names nobody creates a group
    without leader or members.
   */
  function CreateGroup(db: Db, caller: Caller, req: Request): (r: Outcome)
    ensures r.reply.status == Ok || r.reply.status == BadRequest
    ensures r.reply.status != Ok ==> r.db == db && r.reply.body.Failed?
    ensures Missing(req.name) ==> r.reply.body == Failed(NoName)
    ensures Supplied(req.name) && Missing(req.joinType) ==> r.reply.body == Failed(NoJoinType)
    ensures r.reply.body == Failed(UnknownLeader) <==>
      Supplied(req.name) && Supplied(req.joinType) && !LeaderResolves(db, caller, req)
    ensures r.reply.body == Failed(InvalidJoinType) <==>
      Supplied(req.name) && Supplied(req.joinType) && LeaderResolves(db, caller, req)
      && req.joinType.value !in PublicNames
    ensures r.reply.status == Ok <==>
      Supplied(req.name) && Supplied(req.joinType) && LeaderResolves(db, caller, req)
      && req.joinType.value in PublicNames
    ensures r.reply.status == Ok ==>
      && r.db.users == db.users
      && r.db.nextId > db.nextId
      && r.db.groups.Keys == db.groups.Keys + {db.nextId}
      && (forall id :: id in db.groups && id != db.nextId ==> r.db.groups[id] == db.groups[id])
    ensures r.reply.status == Ok ==> db.nextId in r.db.groups
    ensures r.reply.status == Ok ==>
      var g := r.db.groups[db.nextId];
      && g.name == req.name.value
      && g.description == req.desc
      && Display(g.joinLevel) == req.joinType.value
      && !g.deleted && g.removed == {}
      && LeaderIsMember(g)
      && (forall u :: u in g.members ==> g.leader == Some(u))
      && (!caller.siteAdmin ==> g.leader == Some(caller.id))
      && (caller.siteAdmin && Missing(req.leaderId) ==> g.leader.None? && g.members == {})
      && (caller.siteAdmin && Supplied(req.leaderId) ==> g.leader.Some? && g.leader == FindUser(db, req.leaderId))
      && r.reply.body == Created(GroupView(db.nextId, g.name, g.description, g.leader, req.joinType.value, 0))
  {
    if Missing(req.name) then Fail(db, BadRequest, NoName)
    else if Missing(req.joinType) then Fail(db, BadRequest, NoJoinType)
    else if !LeaderResolves(db, caller, req) then Fail(db, BadRequest, UnknownLeader)
    else
      var leader :=
        if !caller.siteAdmin then Some(caller.id)
        else if Supplied(req.leaderId) then FindUser(db, req.leaderId)
        else None;
      match ToInternal(req.joinType.value)
      case None => Fail(db, BadRequest, InvalidJoinType)
      case Some(level) =>
        var id := db.nextId;
        var g := Group(req.name.value, leader, Founders(leader), {}, level, req.desc, false);
        PublicRoundTrip(req.joinType.value);
        Outcome(Reply(Ok, Created(GroupView(id, g.name, g.description, leader, req.joinType.value, 0))),
                db.(groups := db.groups[id := g], nextId := id + 1))
  }

  // ---------------------------------------------------------------- list_groups

  /** The groups `list_groups` reports: those of the category not marked deleted. */
  function Listed(db: Db): set<GroupId> {
    set id | id in db.groups && !db.groups[id].deleted
  }

  /** The views of the groups `ids`, in the same order. */
  function ViewsOf(db: Db, ids: seq<GroupId>): (vs: seq<GroupView>)
    requires forall i :: 0 <= i < |ids| ==> ids[i] in db.groups
    ensures |vs| == |ids|
    ensures forall i :: 0 <= i < |ids| ==> vs[i] == View(ids[i], db.groups[ids[i]])
  {
    if ids == [] then [] else [View(ids[0], db.groups[ids[0]])] + ViewsOf(db, ids[1..])
  }

  /** Every listable group appears in the views of the sorted listed ids. */
  lemma ViewsCoverListed(db: Db, ids: seq<GroupId>, views: seq<GroupView>)
    requires forall i :: 0 <= i < |ids| ==> ids[i] in db.groups
    requires forall id :: id in Listed(db) ==> id in ids
    requires views == ViewsOf(db, ids)
    ensures forall id :: id in db.groups && !db.groups[id].deleted ==>
      exists i :: 0 <= i < |views| && views[i].id == id
  {
    forall id | id in db.groups && !db.groups[id].deleted
      ensures exists i :: 0 <= i < |views| && views[i].id == id
    {
      assert id in Listed(db);
      var i :| 0 <= i < |ids| && ids[i] == id;
      assert views[i].id == id;
    }
  }

  /**
    `list_groups`: every group not marked deleted, each exactly once, with
    its member count and public join type, and the number of groups listed.
   */
  function ListGroups(db: Db): (r: Reply)
    ensures r.status == Ok && r.body.GroupList?
    ensures r.body.count == |r.body.groups| == |Listed(db)|
    ensures forall i :: 0 <= i < |r.body.groups| ==>
      var v := r.body.groups[i];
      v.id in db.groups && !db.groups[v.id].deleted && v == View(v.id, db.groups[v.id])
    ensures forall id :: id in db.groups && !db.groups[id].deleted ==>
      exists i :: 0 <= i < |r.body.groups| && r.body.groups[i].id == id
    ensures forall i, j :: 0 <= i < j < |r.body.groups| ==> r.body.groups[i].id < r.body.groups[j].id
  {
    var ids := SortedIds(Listed(db));
    var views := ViewsOf(db, ids);
    ViewsCoverListed(db, ids, views);
    Reply(Ok, GroupList(|views|, views))
  }

  // ---------------------------------------------------------------- group_info

  /**
    A `where('groups.id = ?', p)` query binds the raw string, and the
    database rejects one that is not an integer of the `bigint` id column,
    raising.
   */
  predicate QueryRaises(p: Param)
    ensures QueryRaises(p) <==> p.Some? && !Blank(p.value) && (!IsDecimal(p.value) || ParseId(p).value > MaxId)
    ensures ParseId(p).Some? ==> (QueryRaises(p) <==> ParseId(p).value > MaxId)
    ensures Supplied(p) && !QueryRaises(p) ==> ParseId(p).Some? && ParseId(p).value <= MaxId
  {
    Supplied(p) && (ParseId(p).None? || ParseId(p).value > MaxId)
  }

  /**
    `group_info`: anyone may read a group; a missing one is `NotFound`, and a
    group id that is not a number in the id column's range makes the query
    raise.
   */
  function GroupInfo(db: Db, req: Request): (r: Reply)
    ensures r.status in {Ok, BadRequest, NotFound, InternalError}
    ensures Missing(req.groupId) ==> r == Reply(BadRequest, Failed(NoGroupId))
    ensures QueryRaises(req.groupId) ==> r == Reply(InternalError, Crash)
    ensures !QueryRaises(req.groupId) && ParseId(req.groupId).Some? && FindGroup(db, req.groupId).None? ==> r == Reply(NotFound, Failed(NoSuchGroup))
    ensures r.status == Ok <==> !QueryRaises(req.groupId) && FindGroup(db, req.groupId).Some?
    ensures r.status == Ok ==>
      var id := FindGroup(db, req.groupId).value;
      var g := db.groups[id];
      && r.body.Info?
      && r.body.view.id == id && r.body.view.name == g.name && r.body.view.description == g.description
      && r.body.view.leader == g.leader
      && r.body.view.size == |g.members|
      && r.body.view.joinType == Display(g.joinLevel)
  {
    if Missing(req.groupId) then Reply(BadRequest, Failed(NoGroupId))
    else if QueryRaises(req.groupId) then Reply(InternalError, Crash)
    else match FindGroup(db, req.groupId)
      case None => Reply(NotFound, Failed(NoSuchGroup))
      case Some(id) => Reply(Ok, Info(View(id, db.groups[id])))
  }

  // ---------------------------------------------------------------- modify_group

  /**
    `modify_group`: only a site admin or the leader may change the
    description or the join type. A blank description keeps the old one; an
    invalid join type is refused after the role check and nothing is saved.
    A group id that is not a number in the id column's range makes the
    query raise.
   */
  function ModifyGroup(db: Db, caller: Caller, req: Request): (r: Outcome)
    ensures r.reply.status in {Ok, BadRequest, NotFound, Forbidden, InternalError}
    ensures r.reply.status != Ok ==> r.db == db
    ensures Missing(req.groupId) ==> r.reply == Reply(BadRequest, Failed(NoGroupId))
    ensures QueryRaises(req.groupId) ==> r.reply == Reply(InternalError, Crash)
    ensures !QueryRaises(req.groupId) && ParseId(req.groupId).Some? && FindGroup(db, req.groupId).None? ==> r.reply == Reply(NotFound, Failed(NoSuchGroup))
    ensures (&& !QueryRaises(req.groupId) && FindGroup(db, req.groupId).Some?
             && !CanManage(caller, db.groups[FindGroup(db, req.groupId).value])) ==>
      r.reply == Reply(Forbidden, Failed(NotOwner))
    ensures (&& !QueryRaises(req.groupId) && FindGroup(db, req.groupId).Some? && CanManage(caller, db.groups[FindGroup(db, req.groupId).value])
             && Supplied(req.joinType) && req.joinType.value !in PublicNames) ==>
      r.reply == Reply(BadRequest, Failed(InvalidJoinType))
    ensures r.reply.status == Ok <==>
      && !QueryRaises(req.groupId)
      && FindGroup(db, req.groupId).Some?
      && CanManage(caller, db.groups[FindGroup(db, req.groupId).value])
      && (Supplied(req.joinType) ==> req.joinType.value in PublicNames)
    ensures r.reply.status == Ok ==>
      var id := FindGroup(db, req.groupId).value;
      var g := db.groups[id];
      && r.db.users == db.users && r.db.nextId == db.nextId
      && r.db.groups.Keys == db.groups.Keys
      && (forall other :: other in db.groups && other != id ==> r.db.groups[other] == db.groups[other])
      && var g' := r.db.groups[id];
      && g'.(description := g.description, joinLevel := g.joinLevel) == g
      && (Missing(req.desc) ==> g'.description == g.description)
      && (Supplied(req.desc) ==> g'.description == req.desc)
      && (Missing(req.joinType) ==> g'.joinLevel == g.joinLevel)
      && (Supplied(req.joinType) ==> g'.joinLevel in InternalLevels && Display(g'.joinLevel) == req.joinType.value)
  {
    if Missing(req.groupId) then Fail(db, BadRequest, NoGroupId)
    else if QueryRaises(req.groupId) then Outcome(Reply(InternalError, Crash), db)
    else match FindGroup(db, req.groupId)
      case None => Fail(db, NotFound, NoSuchGroup)
      case Some(id) =>
        var g := db.groups[id];
        if !CanManage(caller, g) then Fail(db, Forbidden, NotOwner)
        else
          var described := if Supplied(req.desc) then g.(description := req.desc) else g;
          if Missing(req.joinType) then Saved(db, id, described)
          else match ToInternal(req.joinType.value)
            case None => Fail(db, BadRequest, InvalidJoinType)
            case Some(level) =>
              PublicRoundTrip(req.joinType.value);
              Saved(db, id, described.(joinLevel := level))
  }

  // ---------------------------------------------------------------- list_users

  /**
    `list_users`: a site admin or the leader sees the active members, each
    once, and their number; a missing group is a `BadRequest` here.
   */
  function ListUsers(db: Db, caller: Caller, req: Request): (r: Reply)
    ensures r.status in {Ok, BadRequest, Forbidden}
    ensures Missing(req.groupId) ==> r == Reply(BadRequest, Failed(NoGroupId))
    ensures Supplied(req.groupId) && FindGroup(db, req.groupId).None? ==> r == Reply(BadRequest, Failed(NoSuchGroup))
    ensures r.status == Ok <==>
      FindGroup(db, req.groupId).Some? && CanManage(caller, db.groups[FindGroup(db, req.groupId).value])
    ensures FindGroup(db, req.groupId).Some? && !CanManage(caller, db.groups[FindGroup(db, req.groupId).value]) ==>
      r == Reply(Forbidden, Failed(NotOwner))
    ensures r.status == Ok ==>
      var members := db.groups[FindGroup(db, req.groupId).value].members;
      && r.body.UserList?
      && r.body.count == |r.body.users| == |members|
      && (forall i :: 0 <= i < |r.body.users| ==> r.body.users[i] in members)
      && (forall u :: u in members ==> u in r.body.users)
      && StrictlyIncreasing(r.body.users)
  {
    if Missing(req.groupId) then Reply(BadRequest, Failed(NoGroupId))
    else match FindGroup(db, req.groupId)
      case None => Reply(BadRequest, Failed(NoSuchGroup))
      case Some(id) =>
        var g := db.groups[id];
        if !CanManage(caller, g) then Reply(Forbidden, Failed(NotOwner))
        else
          var users := SortedIds(g.members);
          Reply(Ok, UserList(|users|, users))
  }

  // ---------------------------------------------------------------- add_user

  /**
    `add_user`: group id, user id, the user, then the group are checked; a
    site admin, the leader or the user itself may then add the user, and
    nothing but that user's membership changes.
   */
  function AddUser(db: Db, caller: Caller, req: Request): (r: Outcome)
    ensures r.reply.status in {Ok, BadRequest, Forbidden}
    ensures r.reply.status != Ok ==> r.db == db
    ensures Missing(req.groupId) ==> r.reply == Reply(BadRequest, Failed(NoGroupId))
    ensures Supplied(req.groupId) && Missing(req.userId) ==> r.reply == Reply(BadRequest, Failed(NoUserId))
    ensures Supplied(req.groupId) && Supplied(req.userId) && FindUser(db, req.userId).None? ==>
      r.reply == Reply(BadRequest, Failed(UnknownUser))
    ensures Supplied(req.groupId) && FindUser(db, req.userId).Some? && FindGroup(db, req.groupId).None? ==>
      r.reply == Reply(BadRequest, Failed(NoSuchGroup))
    ensures (&& FindUser(db, req.userId).Some? && FindGroup(db, req.groupId).Some?
             && !CanManageMember(caller, db.groups[FindGroup(db, req.groupId).value], FindUser(db, req.userId).value)) ==>
      r.reply == Reply(Forbidden, Failed(NotOwner))
    ensures r.reply.status == Ok <==>
      && FindUser(db, req.userId).Some? && FindGroup(db, req.groupId).Some?
      && CanManageMember(caller, db.groups[FindGroup(db, req.groupId).value], FindUser(db, req.userId).value)
    ensures r.reply.status == Ok ==>
      var id := FindGroup(db, req.groupId).value;
      var u := FindUser(db, req.userId).value;
      && r.db.users == db.users && r.db.nextId == db.nextId
      && r.db.groups.Keys == db.groups.Keys
      && (forall other :: other in db.groups && other != id ==> r.db.groups[other] == db.groups[other])
      && u in r.db.groups[id].members
      && r.db.groups[id].members - {u} == db.groups[id].members - {u}
      && r.db.groups[id].(members := db.groups[id].members) == db.groups[id]
  {
    if Missing(req.groupId) then Fail(db, BadRequest, NoGroupId)
    else if Missing(req.userId) then Fail(db, BadRequest, NoUserId)
    else match FindUser(db, req.userId)
      case None => Fail(db, BadRequest, UnknownUser)
      case Some(u) =>
        match FindGroup(db, req.groupId)
        case None => Fail(db, BadRequest, NoSuchGroup)
        case Some(id) =>
          var g := db.groups[id];
          if CanManageMember(caller, g, u) then Saved(db, id, AddMember(g, u))
          else Fail(db, Forbidden, NotOwner)
  }

  // ---------------------------------------------------------------- remove_user

  /**
    `remove_user`, with the two crashes of the original answered as refusals
    (see `RemoveUserFindings`): after the same checks as `AddUser`, the leader
    cannot be removed and a user without an active membership is refused;
    otherwise only the user's membership is marked deleted.
   */
  function RemoveUser(db: Db, caller: Caller, req: Request): (r: Outcome)
    ensures r.reply.status in {Ok, BadRequest, Forbidden}
    ensures r.reply.status != Ok ==> r.db == db
    ensures Missing(req.groupId) ==> r.reply == Reply(BadRequest, Failed(NoGroupId))
    ensures Supplied(req.groupId) && Missing(req.userId) ==> r.reply == Reply(BadRequest, Failed(NoUserId))
    ensures Supplied(req.groupId) && Supplied(req.userId) && FindUser(db, req.userId).None? ==>
      r.reply == Reply(BadRequest, Failed(UnknownUser))
    ensures Supplied(req.groupId) && FindUser(db, req.userId).Some? && FindGroup(db, req.groupId).None? ==>
      r.reply == Reply(BadRequest, Failed(NoSuchGroup))
    ensures FindUser(db, req.userId).Some? && FindGroup(db, req.groupId).Some? ==>
      var g := db.groups[FindGroup(db, req.groupId).value];
      var u := FindUser(db, req.userId).value;
      && (!CanManageMember(caller, g, u) ==> r.reply == Reply(Forbidden, Failed(NotOwner)))
      && (CanManageMember(caller, g, u) && g.leader == Some(u) ==> r.reply == Reply(BadRequest, Failed(LeaderRemoval)))
      && (CanManageMember(caller, g, u) && g.leader != Some(u) && u !in g.members ==>
            r.reply == Reply(BadRequest, Failed(NotMember)))
    ensures r.reply.status == Ok <==>
      && FindUser(db, req.userId).Some? && FindGroup(db, req.groupId).Some?
      && var g := db.groups[FindGroup(db, req.groupId).value];
      && var u := FindUser(db, req.userId).value;
      && CanManageMember(caller, g, u) && g.leader != Some(u) && u in g.members
    ensures r.reply.status == Ok ==>
      var id := FindGroup(db, req.groupId).value;
      var u := FindUser(db, req.userId).value;
      && r.db.users == db.users && r.db.nextId == db.nextId
      && r.db.groups.Keys == db.groups.Keys
      && (forall other :: other in db.groups && other != id ==> r.db.groups[other] == db.groups[other])
      && u !in r.db.groups[id].members && u in r.db.groups[id].removed
      && r.db.groups[id].leader == db.groups[id].leader
      && OnlyMembershipOf(db.groups[id], r.db.groups[id], u)
  {
    if Missing(req.groupId) then Fail(db, BadRequest, NoGroupId)
    else if Missing(req.userId) then Fail(db, BadRequest, NoUserId)
    else match FindUser(db, req.userId)
      case None => Fail(db, BadRequest, UnknownUser)
      case Some(u) =>
        match FindGroup(db, req.groupId)
        case None => Fail(db, BadRequest, NoSuchGroup)
        case Some(id) =>
          var g := db.groups[id];
          if !CanManageMember(caller, g, u) then Fail(db, Forbidden, NotOwner)
          else if g.leader == Some(u) then Fail(db, BadRequest, LeaderRemoval)
          else if u !in g.members then Fail(db, BadRequest, NotMember)
          else Saved(db, id, DropMember(g, u))
  }

  // ---------------------------------------------------------------- set_leader

  /**
    `set_leader`: the leader id and that user are checked before the group
    (whose id is not checked for blankness); a site admin or the current
    leader may then make the user leader, who also becomes a member.
   */
  function SetLeader(db: Db, caller: Caller, req: Request): (r: Outcome)
    ensures r.reply.status in {Ok, BadRequest, Forbidden}
    ensures r.reply.status != Ok ==> r.db == db
    ensures Missing(req.leaderId) ==> r.reply == Reply(BadRequest, Failed(NoLeaderId))
    ensures Supplied(req.leaderId) && FindUser(db, req.leaderId).None? ==>
      r.reply == Reply(BadRequest, Failed(UnknownLeader))
    ensures FindUser(db, req.leaderId).Some? && FindGroup(db, req.groupId).None? ==>
      r.reply == Reply(BadRequest, Failed(NoSuchGroup))
    ensures (&& FindUser(db, req.leaderId).Some? && FindGroup(db, req.groupId).Some?
             && !CanManage(caller, db.groups[FindGroup(db, req.groupId).value])) ==>
      r.reply == Reply(Forbidden, Failed(NotOwner))
    ensures r.reply.status == Ok <==>
      && FindUser(db, req.leaderId).Some? && FindGroup(db, req.groupId).Some?
      && CanManage(caller, db.groups[FindGroup(db, req.groupId).value])
    ensures r.reply.status == Ok ==>
      var id := FindGroup(db, req.groupId).value;
      var l := FindUser(db, req.leaderId).value;
      && r.db.users == db.users && r.db.nextId == db.nextId
      && r.db.groups.Keys == db.groups.Keys
      && (forall other :: other in db.groups && other != id ==> r.db.groups[other] == db.groups[other])
      && r.db.groups[id].leader == Some(l)
      && r.db.groups[id].members == db.groups[id].members + {l}
      && r.db.groups[id].(leader := db.groups[id].leader, members := db.groups[id].members) == db.groups[id]
  {
    if Missing(req.leaderId) then Fail(db, BadRequest, NoLeaderId)
    else match FindUser(db, req.leaderId)
      case None => Fail(db, BadRequest, UnknownLeader)
      case Some(l) =>
        match FindGroup(db, req.groupId)
        case None => Fail(db, BadRequest, NoSuchGroup)
        case Some(id) =>
          var g := db.groups[id];
          if !CanManage(caller, g) then Fail(db, Forbidden, NotOwner)
          else Saved(db, id, AddMember(g, l).(leader := Some(l)))
  }

  // ---------------------------------------------------------------- dispatch

  datatype Op =
    | ListGroupsOp | CreateGroupOp | GroupInfoOp | ModifyGroupOp
    | ListUsersOp | AddUserOp | RemoveUserOp | SetLeaderOp

  /**
    One request to the controller. Across all eight handlers: a refused
    request changes nothing, no group disappears, users are never created,
    and the store's invariant is kept. The only crash left is the raw-id
    query of `group_info` and `modify_group`.
   */
  function Handle(db: Db, caller: Caller, op: Op, req: Request): (r: Outcome)
    ensures r.reply.status != Ok ==> r.db == db
    ensures r.reply.status == InternalError ==>
      (op == GroupInfoOp || op == ModifyGroupOp) && QueryRaises(req.groupId)
    ensures r.db.users == db.users
    ensures db.groups.Keys <= r.db.groups.Keys
    ensures Valid(db) ==> Valid(r.db)
  {
    match op
    case ListGroupsOp => Outcome(ListGroups(db), db)
    case CreateGroupOp => CreateGroup(db, caller, req)
    case GroupInfoOp => Outcome(GroupInfo(db, req), db)
    case ModifyGroupOp => ModifyGroup(db, caller, req)
    case ListUsersOp => Outcome(ListUsers(db, caller, req), db)
    case AddUserOp => AddUser(db, caller, req)
    case RemoveUserOp => RemoveUser(db, caller, req)
    case SetLeaderOp => SetLeader(db, caller, req)
  }
}

=== FILE: manager_properties.dfy ===
/**
  Properties that relate several requests to the manager controller:
  read-after-write, idempotence, inverse operations, the shared join-type
  mapping, where a missing group is reported how, and who may change what.
 */
module ManagerProperties {
  import opened Wrappers
  import opened Params
  import opened JoinTypes
  import opened Spaces
  import opened Manager

  /** A request that carries only a group id. */
  function GroupOnly(p: Param): Request {
    Request(None, None, None, None, p, None)
  }

  /**
    Reading a group right after creating it reports the public join type the
    creator chose and the creator's leader; its size is the one member the
    leader makes, although the creation reply says 0.
   */
  lemma CreateThenInfo(db: Db, caller: Caller, req: Request, p: Param)
    requires CreateGroup(db, caller, req).reply.status == Ok
    requires ParseId(p) == Some(db.nextId)
    requires db.nextId <= MaxId
    ensures
      var created := CreateGroup(db, caller, req);
      var info := GroupInfo(created.db, GroupOnly(p));
      && info.status == Ok && info.body.Info?
      && info.body.view.joinType == req.joinType.value == created.reply.body.view.joinType
      && info.body.view.leader == created.reply.body.view.leader
      && info.body.view.size == (if info.body.view.leader.Some? then 1 else 0)
      && created.reply.body.view.size == 0
  {
  }

  /** A non-admin creator's `leader_id` parameter has no effect at all. */
  lemma NonAdminLeaderIdIgnored(db: Db, caller: Caller, req: Request, other: Param)
    requires !caller.siteAdmin
    ensures CreateGroup(db, caller, req) == CreateGroup(db, caller, req.(leaderId := other))
  {
  }

  /**
    `create_group` and `modify_group` store a public join type as the same
    internal level: both stored levels display as the requested name, and
    display is injective.
   */
  lemma CreateAndModifyAgreeOnLevel(db: Db, caller: Caller, createReq: Request, modifyReq: Request)
    requires CreateGroup(db, caller, createReq).reply.status == Ok
    requires ModifyGroup(db, caller, modifyReq).reply.status == Ok
    requires Supplied(modifyReq.joinType) && modifyReq.joinType == createReq.joinType
    ensures
      var c := CreateGroup(db, caller, createReq).db;
      var m := ModifyGroup(db, caller, modifyReq).db;
      c.groups[db.nextId].joinLevel == m.groups[FindGroup(db, modifyReq.groupId).value].joinLevel
  {
  }

  /** A `modify_group` with neither description nor join type saves the group unchanged. */
  lemma EmptyModifyChangesNothing(db: Db, caller: Caller, req: Request)
    requires Missing(req.desc) && Missing(req.joinType)
    ensures ModifyGroup(db, caller, req).db == db
  {
  }

  /**
    A group id that names no group is reported `NotFound` by `group_info`
    and `modify_group` when it is a number in the id column's range (any
    other makes their query raise), but `BadRequest` by `list_users`, `add_user`, `remove_user` and
    `set_leader` once their earlier checks pass.
   */
  lemma MissingGroupReplies(db: Db, caller: Caller, req: Request)
    requires Supplied(req.groupId) && FindGroup(db, req.groupId).None?
    ensures !QueryRaises(req.groupId) ==>
      GroupInfo(db, req).status == NotFound && ModifyGroup(db, caller, req).reply.status == NotFound
    ensures QueryRaises(req.groupId) ==>
      GroupInfo(db, req).status == InternalError && ModifyGroup(db, caller, req).reply.status == InternalError
    ensures ListUsers(db, caller, req).status == BadRequest
    ensures FindUser(db, req.userId).Some? ==>
      && AddUser(db, caller, req).reply == Reply(BadRequest, Failed(NoSuchGroup))
      && RemoveUser(db, caller, req).reply == Reply(BadRequest, Failed(NoSuchGroup))
    ensures FindUser(db, req.leaderId).Some? ==>
      SetLeader(db, caller, req).reply == Reply(BadRequest, Failed(NoSuchGroup))
  {
  }

  /** Adding a user a second time changes nothing and still succeeds. */
  lemma AddUserIdempotent(db: Db, caller: Caller, req: Request)
    requires AddUser(db, caller, req).reply.status == Ok
    ensures
      var once := AddUser(db, caller, req);
      AddUser(once.db, caller, req) == once
  {
  }

  /**
    Making a user leader twice leaves the store as once did. (The second
    request may be refused: a leader who handed over leadership no longer
    owns the group.)
   */
  lemma SetLeaderIdempotent(db: Db, caller: Caller, req: Request)
    requires SetLeader(db, caller, req).reply.status == Ok
    ensures
      var once := SetLeader(db, caller, req);
      SetLeader(once.db, caller, req).db == once.db
  {
  }

  /** Making an existing member leader leaves the membership as it was. */
  lemma SetLeaderOfMemberKeepsMembers(db: Db, caller: Caller, req: Request)
    requires SetLeader(db, caller, req).reply.status == Ok
    requires FindUser(db, req.leaderId).value in db.groups[FindGroup(db, req.groupId).value].members
    ensures
      var id := FindGroup(db, req.groupId).value;
      SetLeader(db, caller, req).db.groups[id].members == db.groups[id].members
  {
  }

  /** Removing a user just added (who does not lead the group) succeeds and undoes the membership. */
  lemma AddThenRemove(db: Db, caller: Caller, req: Request)
    requires AddUser(db, caller, req).reply.status == Ok
    requires db.groups[FindGroup(db, req.groupId).value].leader != FindUser(db, req.userId)
    ensures
      var added := AddUser(db, caller, req);
      var removed := RemoveUser(added.db, caller, req);
      && removed.reply.status == Ok
      && FindUser(db, req.userId).value !in removed.db.groups[FindGroup(db, req.groupId).value].members
  {
  }

  /** Adding back a user just removed succeeds and restores the membership. */
  lemma RemoveThenAdd(db: Db, caller: Caller, req: Request)
    requires RemoveUser(db, caller, req).reply.status == Ok
    ensures
      var removed := RemoveUser(db, caller, req);
      var added := AddUser(removed.db, caller, req);
      var id := FindGroup(db, req.groupId).value;
      && added.reply.status == Ok
      && added.db.groups[id].members == db.groups[id].members
  {
  }

  /** Only `set_leader` changes who leads an existing group. */
  lemma LeaderChangesOnlyBySetLeader(db: Db, caller: Caller, op: Op, req: Request)
    requires Valid(db)
    requires op != SetLeaderOp
    ensures
      var r := Handle(db, caller, op, req);
      forall id :: id in db.groups ==> r.db.groups[id].leader == db.groups[id].leader
  {
  }

  /**
    Every change to an existing group is made by a site admin or its
    leader, except that any user may change their own membership.
   */
  lemma ChangesAreAuthorized(db: Db, caller: Caller, op: Op, req: Request)
    requires Valid(db)
    ensures
      var r := Handle(db, caller, op, req);
      forall id :: id in db.groups && r.db.groups[id] != db.groups[id] ==>
        || CanManage(caller, db.groups[id])
        || ((op == AddUserOp || op == RemoveUserOp) && OnlyMembershipOf(db.groups[id], r.db.groups[id], caller.id))
  {
  }
}

=== FILE: ordering.dfy ===
/**
  Listing a finite set of ids as a sequence. The database returns rows in an
  unspecified order; the model lists them by ascending id.
 */
module Ordering {

  predicate StrictlyIncreasing(s: seq<nat>) {
    forall i, j :: 0 <= i < j < |s| ==> s[i] < s[j]
  }

  predicate IsMin(m: nat, s: set<nat>) {
    m in s && forall y :: y in s ==> m <= y
  }

  lemma {:induction false} MinExists(s: set<nat>)
    requires s != {}
    ensures exists m :: IsMin(m, s)
  {
    var x :| x in s;
    var rest := s - {x};
    if rest == {} {
      assert s == {x};
      assert IsMin(x, s);
    } else {
      MinExists(rest);
      var m :| IsMin(m, rest);
      var least := if x < m then x else m;
      forall y | y in s
        ensures least <= y
      {
        if y != x {
          assert y in rest;
        }
      }
      assert IsMin(least, s);
    }
  }

  function Min(s: set<nat>): (m: nat)
    requires s != {}
    ensures m in s && forall y :: y in s ==> m <= y
  {
    MinExists(s);
    var m :| IsMin(m, s);
    m
  }

  /** The elements of `s`, each once, in ascending order. */
  function SortedIds(s: set<nat>): (r: seq<nat>)
    ensures |r| == |s|
    ensures forall i :: 0 <= i < |r| ==> r[i] in s
    ensures forall x :: x in s ==> x in r
    ensures StrictlyIncreasing(r)
    decreases s
  {
    if s == {} then []
    else
      var m := Min(s);
      [m] + SortedIds(s - {m})
  }
}

=== FILE: params.dfy ===
/**
  Request parameters as a Rails controller receives them: each one is either
  absent (`nil`) or a string. This module states ActiveSupport's notion of a
  blank string and the cast of an id parameter to a database id.
 */
module Params {
  import opened Wrappers

  type Param = Option<string>

  /** The characters of the POSIX class [[:space:]] on a Unicode string, which `String#blank?` matches. */
  predicate IsSpace(c: char) {
    || c == ' ' || c == '\t' || c == '\n' || c == '\U{0B}' || c == '\U{0C}' || c == '\r'
    || c == '\U{85}' || c == '\U{A0}' || c == '\U{1680}'
    || ('\U{2000}' <= c <= '\U{200A}')
    || c == '\U{2028}' || c == '\U{2029}' || c == '\U{202F}' || c == '\U{205F}' || c == '\U{3000}'
  }

  /** `s.blank?`: empty or made of white space only. */
  predicate Blank(s: string) {
    forall i :: 0 <= i < |s| ==> IsSpace(s[i])
  }

  /** `p.nil? || p.blank?`, the test every handler applies to a required parameter. */
  predicate Missing(p: Param)
    ensures Missing(p) <==> !Supplied(p)
    ensures p == None || p == Some([]) ==> Missing(p)
  {
    p.None? || Blank(p.value)
  }

  /** `p && !p.blank?`, the test for an optional parameter that was given. */
  predicate Supplied(p: Param)
    ensures Supplied(p) <==> p.Some? && exists i :: 0 <= i < |p.value| && !IsSpace(p.value[i])
  {
    p.Some? && !Blank(p.value)
  }

  predicate IsDigit(c: char) {
    '0' <= c <= '9'
  }

  predicate IsDecimal(s: string) {
    |s| > 0 && forall i :: 0 <= i < |s| ==> IsDigit(s[i])
  }

  function DecimalValue(s: string): nat
    requires forall i :: 0 <= i < |s| ==> IsDigit(s[i])
    decreases |s|
  {
    if s == [] then 0
    else
      var d := s[|s| - 1];
      assert IsDigit(d);
      DecimalValue(s[..|s| - 1]) * 10 + (d as int - '0' as int)
  }

  /**
    The database id an id parameter names, as `find_by_id` casts it. A
    parameter that does not denote an id finds nothing.
   */
  function ParseId(p: Param): (r: Option<nat>)
    ensures r.Some? <==> p.Some? && IsDecimal(p.value)
    ensures r.Some? ==> Supplied(p)
  {
    if p.Some? && IsDecimal(p.value) then
      assert !IsSpace(p.value[0]);
      Some(DecimalValue(p.value))
    else None
  }

  /** The decimal digit of `d`. */
  function Digit(d: nat): (c: char)
    requires d < 10
    ensures IsDigit(c) && c as int - '0' as int == d
  {
    ('0' as int + d) as char
  }

  /** Ruby's `Integer#to_s`: the decimal spelling of an id, as a client sends it. */
  function DecimalString(n: nat): (s: string)
    ensures IsDecimal(s)
    decreases n
  {
    if n < 10 then [Digit(n)] else DecimalString(n / 10) + [Digit(n % 10)]
  }

  /** The decimal spelling of an id names exactly that id. */
  lemma {:induction false} ParseIdOfDecimal(n: nat)
    ensures ParseId(Some(DecimalString(n))) == Some(n)
    decreases n
  {
    var s := DecimalString(n);
    if n < 10 {
      assert s[..|s| - 1] == [];
    } else {
      ParseIdOfDecimal(n / 10);
      assert s[..|s| - 1] == DecimalString(n / 10);
      assert DecimalValue(s) == DecimalValue(DecimalString(n / 10)) * 10 + n % 10;
    }
  }
}

=== FILE: remove_user_findings.dfy ===
/**
  `remove_user` exactly as the controller is written. Two of its paths raise
  instead of answering: the "user not found" reply interpolates an undefined
  local, and a target without an active membership leaves the membership
  lookup `nil`. Rails answers both with status 500. `Manager.RemoveUser` is
  the corrected handler that answers them with `BadRequest`.
 */
module RemoveUserFindings {
  import opened Wrappers
  import opened Params
  import opened Spaces
  import opened Manager

  function RemoveUserAsWritten(db: Db, caller: Caller, req: Request): (r: Outcome)
    ensures r.reply.status != Ok ==> r.db == db
    ensures r.reply.status == InternalError <==>
      && Supplied(req.groupId) && Supplied(req.userId)
      && (|| FindUser(db, req.userId).None?
          || (&& FindGroup(db, req.groupId).Some?
              && var g := db.groups[FindGroup(db, req.groupId).value];
              && var u := FindUser(db, req.userId).value;
              && CanManageMember(caller, g, u) && g.leader != Some(u) && u !in g.members))
  {
    if Missing(req.groupId) then Fail(db, BadRequest, NoGroupId)
    else if Missing(req.userId) then Fail(db, BadRequest, NoUserId)
    else match FindUser(db, req.userId)
      case None => Outcome(Reply(InternalError, Crash), db)
      case Some(u) =>
        match FindGroup(db, req.groupId)
        case None => Fail(db, BadRequest, NoSuchGroup)
        case Some(id) =>
          var g := db.groups[id];
          if !CanManageMember(caller, g, u) then Fail(db, Forbidden, NotOwner)
          else if g.leader == Some(u) then Fail(db, BadRequest, LeaderRemoval)
          else if u !in g.members then Outcome(Reply(InternalError, Crash), db)
          else Saved(db, id, DropMember(g, u))
  }

  /** Removing a user id that names nobody crashes instead of answering `BadRequest`. */
  lemma UnknownUserCrashes()
    ensures
      var db := Db({}, map[], 0);
      var req := Request(None, None, None, None, Some("1"), Some("7"));
      && RemoveUserAsWritten(db, Caller(3, true), req).reply == Reply(InternalError, Crash)
      && RemoveUser(db, Caller(3, true), req).reply == Reply(BadRequest, Failed(UnknownUser))
  {
    assert ParseId(Some("7")) == Some(7);
    assert ParseId(Some("1")).Some?;
  }

  /** An admin removing an existing user who is not a member crashes. */
  lemma NonMemberCrashes()
    ensures
      var g := Group("g", Some(2), {2}, {}, "invitation_only", None, false);
      var db := Db({2, 7}, map[1 := g], 2);
      var req := Request(None, None, None, None, Some("1"), Some("7"));
      && RemoveUserAsWritten(db, Caller(3, true), req).reply == Reply(InternalError, Crash)
      && RemoveUser(db, Caller(3, true), req).reply == Reply(BadRequest, Failed(NotMember))
  {
    assert ParseId(Some("7")) == Some(7);
    assert ParseId(Some("1")) == Some(1);
  }

  /**
    The corrected handler answers exactly as the original wherever the
    original does not crash, and answers `BadRequest` without changing
    anything where it does.
   */
  lemma CorrectedAgreesOutsideCrashes(db: Db, caller: Caller, req: Request)
    ensures RemoveUserAsWritten(db, caller, req).reply.status != InternalError ==>
      RemoveUser(db, caller, req) == RemoveUserAsWritten(db, caller, req)
    ensures RemoveUserAsWritten(db, caller, req).reply.status == InternalError ==>
      RemoveUser(db, caller, req).reply.status == BadRequest && RemoveUser(db, caller, req).db == db
  {
  }
}

=== FILE: spaces.dfy ===
/**
  The records the controller works on, owned by the learning platform: users,
  and the groups ("spaces") of the one group category the service manages.
 */
module Spaces {
  import opened Wrappers
  import opened Params

  type UserId = nat
  type GroupId = nat

  /** The largest value of the platform's `bigint` id columns. */
  const MaxId: nat := 0x7FFF_FFFF_FFFF_FFFF

  /**
    A space. `members` holds the users whose membership is active and
    `removed` those with a membership marked deleted; `deleted` is the
    group's own `workflow_state == 'deleted'`.
   */
  datatype Group = Group(
    name: string,
    leader: Option<UserId>,
    members: set<UserId>,
    removed: set<UserId>,
    joinLevel: string,
    description: Option<string>,
    deleted: bool)

  /** The signed-in user, as the session supplies it. */
  datatype Caller = Caller(id: UserId, siteAdmin: bool)

  /** The existing users, the groups of the category, and the id the database allocates next. */
  datatype Db = Db(users: set<UserId>, groups: map<GroupId, Group>, nextId: GroupId)

  predicate LeaderIsMember(g: Group) {
    g.leader.Some? ==> g.leader.value in g.members
  }

  /**
    What the handlers keep true of the store: allocated ids are below
    `nextId`, and every leader holds an active membership.
   */
  predicate Valid(db: Db) {
    && (forall id :: id in db.groups ==> id < db.nextId)
    && (forall id :: id in db.groups ==> LeaderIsMember(db.groups[id]))
  }

  /** `group.leader_id == @current_user.id`; a group without leader has no owner. */
  predicate IsLeader(c: Caller, g: Group) {
    g.leader == Some(c.id)
  }

  /** Who may change a group or see its members: a site admin or the group's leader. */
  predicate CanManage(c: Caller, g: Group)
    ensures c.siteAdmin ==> CanManage(c, g)
    ensures !c.siteAdmin ==> (CanManage(c, g) <==> g.leader == Some(c.id))
    ensures g.leader.None? ==> (CanManage(c, g) <==> c.siteAdmin)
  {
    c.siteAdmin || IsLeader(c, g)
  }

  /** Who may add or remove user `u`: additionally `u` itself. */
  predicate CanManageMember(c: Caller, g: Group, u: UserId)
    ensures CanManage(c, g) ==> CanManageMember(c, g, u)
    ensures u == c.id ==> CanManageMember(c, g, u)
    ensures !CanManage(c, g) ==> (CanManageMember(c, g, u) <==> u == c.id)
  {
    CanManage(c, g) || c.id == u
  }

  /** `User.find_by_id(p)`. */
  function FindUser(db: Db, p: Param): (r: Option<UserId>)
    ensures r.Some? ==> r.value in db.users && Supplied(p) && ParseId(p) == Some(r.value)
    ensures r.None? ==> ParseId(p).None? || ParseId(p).value !in db.users
  {
    match ParseId(p)
    case Some(n) => if n in db.users then Some(n) else None
    case None => None
  }

  /** `group_cat.groups.find_by_id(p)`: groups of the category, deleted ones included. */
  function FindGroup(db: Db, p: Param): (r: Option<GroupId>)
    ensures r.Some? ==> r.value in db.groups && Supplied(p) && ParseId(p) == Some(r.value)
    ensures r.None? ==> ParseId(p).None? || ParseId(p).value !in db.groups
  {
    match ParseId(p)
    case Some(n) => if n in db.groups then Some(n) else None
    case None => None
  }

  /** The platform's `group.add_user(u)`: `u` ends with an active membership. */
  function AddMember(g: Group, u: UserId): (r: Group)
    ensures u in r.members
    ensures OnlyMembershipOf(g, r, u) && r.removed == g.removed
    ensures u in g.members ==> r == g
    ensures LeaderIsMember(g) ==> LeaderIsMember(r)
  {
    g.(members := g.members + {u})
  }

  /** Marking `u`'s membership deleted. */
  function DropMember(g: Group, u: UserId): (r: Group)
    ensures u !in r.members && u in r.removed
    ensures OnlyMembershipOf(g, r, u)
    ensures LeaderIsMember(g) && g.leader != Some(u) ==> LeaderIsMember(r)
  {
    g.(members := g.members - {u}, removed := g.removed + {u})
  }

  /** A group's change concerns nothing but `u`'s own membership. */
  predicate OnlyMembershipOf(g: Group, g': Group, u: UserId) {
    && g'.(members := g.members, removed := g.removed) == g
    && g'.members - {u} == g.members - {u}
    && g'.removed - {u} == g.removed - {u}
  }
}

=== FILE: wrappers.dfy ===
/** Optional values: Ruby's `nil` becomes `None`. */
module Wrappers {

  datatype Option<+T> = None | Some(value: T)
}
